=== FILE: README.md ===
# Head-pose angle library — a Dafny model

This project models the angle utilities of a clinical photo-capture app
(`src/angle.js`). These are pure functions that turn facial landmark
coordinates into angles in degrees. The image convention is x to the right and
y downwards. The library provides:

- 2D and 3D vector helpers: dot product, cross product, and norm through
  `Math.hypot`. `vec3` reads a missing depth as 0.
- `angleBetweenPoints2D` / `angleBetweenPoints3D`: the unsigned angle ABC,
  computed as `atan2(|cross|, dot)`.
- `rollFromEyes`: the signed angle of the eye line.
- `estimateHeadPose`: checks that `leftEye`, `rightEye`, `nose` and `chin`
  are present, then builds `{pitch, yaw, roll}` from atan2 heuristics. A zero
  divisor is replaced by `1e-6` (`x || 1e-6`).

Numbers are exact `real`s. `Math.PI`, `Math.atan2` and `Math.hypot` cannot be
defined over Dafny's reals. They are therefore fields of a `MathModel.Math`
value that every operation takes as a parameter. `Math.Valid()` lists the
facts the proofs use:

- pi > 0.
- atan2 lies in (-pi, pi], and equals pi only when y = 0.
- atan2 has the sign of y.
- atan2(0, x) is 0 for x >= 0 and pi for x < 0. That includes atan2(0, 0) = 0,
  as section 21.3.2.8 of ECMA-262 specifies for `Math.atan2`.
- The quadrant bounds against pi/2, and atan2(x, x) = pi/4 for x > 0.
- Two-argument hypot is zero exactly for the zero vector and positive otherwise.
- Three-argument hypot is never negative, and hypot(0, 0, z) = |z|.

Each fact holds for the real functions. `MathModel.AxiomsAreConsistent` builds
a concrete `Math` that satisfies all of them, so `Valid()` can be met.

Modules: `Wrappers` (`Option`, `Result`), `MathModel`, `Geometry` (points and
vectors), `Angle` (degrees, three-point angles, roll) and `HeadPose`
(landmarks, the floors, yaw, pitch, `EstimateHeadPose`).

The comment on pitch (src/angle.js:86) and the code disagree; the model
follows the code. The comment says a positive pitch means the nose sits
closer to the chin than to the eyes. In the code, pitch is
`atan2(nose.y - midEye.y, eyeToChin)`. Its sign is therefore the sign of the
nose's vertical offset from the eye midpoint, with one exception: when the nose
is exactly at the eye midpoint's height and the chin is above it, pitch is 180.
With the test's frontal face (nose at 0.12, chin at 0.5) the nose is nearer the
eyes, and pitch is still positive. "Above" and "below" here compare with the
height of the eye midpoint, not with the possibly tilted line through both
eyes.
`HeadPose.Pitch` states the code's rule.

## Model

| member | source | states |
|---|---|---|
| Geometry.Depth | src/angle.js:31 | `a.z \|\| 0`: a missing depth reads as 0, a present depth is kept |
| Geometry.Dot2 | src/angle.js:13 | `dot2` is 0 when either vector is zero, and never negative for a vector with itself |
| Geometry.Cross2 | src/angle.js:14 | `cross2` is 0 when either vector is zero or the two are the same |
| Geometry.Dot3 | src/angle.js:32 | `dot3` is 0 when either vector is zero, and never negative for a vector with itself |
| Geometry.Cross3 | src/angle.js:33 | `cross3` is the zero vector when either vector is zero or the two are the same |
| MathModel.Abs | src/angle.js:26 | `Math.abs` is never negative, and equal to x or -x |
| Geometry.Norm2 | src/angle.js:15 | the 2D norm is never negative, and zero exactly for the zero vector |
| Geometry.Vec3 | src/angle.js:31 | the displacement has the 2D displacement as x/y; its depth is the difference of the depths, a missing depth counting as 0 (`a.z \|\| 0`), so it is 0 for two points of the image plane |
| Geometry.Norm3 | src/angle.js:34 | the 3D norm is never negative; along the z-axis it is the absolute value of z |
| Geometry.Dot3OfPlanar | src/angle.js:32 | on the plane z = 0, `dot3` equals `dot2` |
| Geometry.Cross3OfPlanar | src/angle.js:33 | the cross product of two vectors with z = 0 is (0, 0, cross2) |
| Geometry.Norm3OfPlanarCross | src/angle.js:33-34 | the norm of that cross product is abs(cross2) |
| Geometry.SwapVectors2 | src/angle.js:13-14 | swapping the vectors keeps `dot2` and negates `cross2` |
| Geometry.PerpendicularNotParallel | src/angle.js:13-14 | two nonzero vectors with dot2 = 0 have a nonzero cross2, by Lagrange's identity |
| Angle.ToDegrees | src/angle.js:10 | the degree value times pi equals the radian value times 180 |
| Angle.DegreesOrder | src/angle.js:10 | conversion to degrees is strictly increasing, so it keeps order and is injective |
| Angle.DegreesOfPiMultiples | src/angle.js:10 | pi, -pi, pi/2, -pi/2, pi/4 and 0 map to 180, -180, 90, -90, 45 and 0 |
| Angle.AngleBetweenPoints2D | src/angle.js:17-28 | the angle ABC always lies in [0, 180], as the doc comment promises |
| Angle.AngleBetweenPoints3D | src/angle.js:36-47 | the 3D angle ABC always lies in [0, 180] |
| Angle.RollFromEyes | src/angle.js:49-57 | roll lies in (-180, 180] and is negative exactly when the right eye is higher; 0 exactly for a level line with the right eye at or right of the left eye; 180 exactly for a level line with the eyes swapped; within (-90, 90) when the right eye is to the right; 90 straight down; 45 on the diagonal dx = dy > 0 |
| Angle.AngleClassification2D | src/angle.js:21-28 | the angle is 0 iff cross = 0 and dot >= 0; 180 iff cross = 0 and dot < 0; 90 iff dot = 0 and cross is nonzero; below 90 iff dot > 0 or both are 0; strictly between 0 and 180 iff cross is nonzero |
| Angle.RightAngle2D | src/angle.js:21-28 | two nonzero perpendicular arms give exactly 90 |
| Angle.DegenerateAngle2D | src/angle.js:21-28 | a zero-length arm gives 0 (atan2(0, 0)), not an error |
| Angle.AngleSymmetric2D | src/angle.js:21-28 | swapping the outer points A and C leaves the angle unchanged |
| Angle.DegenerateAngle3D | src/angle.js:39-47 | a zero-length arm gives 0 in space too: whenever `vec3` reads BA or BC as the zero vector, including two points that differ only by a missing versus a 0 depth |
| Angle.AnglePlanarAgreement | src/angle.js:21-47 | with every depth missing or 0, the 3D angle equals the 2D angle of the same points |
| Angle.AxisRightAngle2D | src/angle.js:21-28 | nonzero arms along the two coordinate axes give 90 |
| Angle.RightAngleExample2D | tests/angle.test.js:10-13 | A = (0,1), B = (0,0), C = (1,0) gives exactly 90 |
| Angle.RightAngleExample3D | tests/angle.test.js:25-28 | A = (0,0,0), B = (1,0,0), C = (1,1,0) gives exactly 90 |
| Angle.RollExamples | tests/angle.test.js:15-23 | eyes (0,0) and (1,0) give roll 0; eyes (0,0) and (1,1) give roll 45 |
| HeadPose.OrEpsilon | src/angle.js:75 | `x \|\| 1e-6` replaces 0 by exactly 1e-6, keeps every nonzero x unchanged, is never zero, and is positive exactly when x is not negative |
| HeadPose.MidEye | src/angle.js:74 | the eye midpoint is as far from one eye as from the other, along each axis |
| HeadPose.InterEyeDist | src/angle.js:75 | the inter-eye divisor is strictly positive: the true distance when the eyes differ, 1e-6 when they coincide |
| HeadPose.EyeToChin | src/angle.js:87 | the eye-to-chin divisor is never zero, and exactly 1e-6 when the chin is level with the eye midpoint's height; it is positive iff the chin is not above that height, and it keeps the true (possibly negative) difference whenever that is nonzero |
| HeadPose.Yaw | src/angle.js:80-83 | yaw lies in (-90, 90); it is positive iff the nose is right of the eye midpoint, negative iff left, and 0 iff level with it |
| HeadPose.Pitch | src/angle.js:85-89 | pitch is negative iff the nose is above the eye midpoint's height; positive and not 180 iff below it; 180 iff the nose is at that height with the chin above it. Pitch lies in (-90, 90) when the chin is not above the midpoint's height, and beyond +-90 when the chin is above it and the nose is off it |
| HeadPose.EstimateHeadPose | src/angle.js:68-92 | fails with MissingLandmarks exactly when a landmark is absent; otherwise roll lies in (-180, 180], is 0 exactly for a level eye line with the right eye at or right of the left eye, and is negative exactly when the right eye is higher; yaw lies in (-90, 90) with the sign of the nose's horizontal offset; pitch is negative exactly when the nose is above the eye midpoint, and lies in (-90, 90) with the sign of the nose's vertical offset when the chin is not above the eye midpoint's height |
| HeadPose.EstimateRollIsEyeRoll | src/angle.js:78 | the pose's roll is exactly rollFromEyes of the two eyes |
| HeadPose.MissingAnyLandmarkFails | src/angle.js:68-72 | leaving out any one of the four landmarks yields the error, whatever the others hold |
| HeadPose.PoseTranslationInvariant | src/angle.js:74-91 | moving all four landmarks by the same offset leaves pitch, yaw and roll unchanged |
| HeadPose.FrontalFace | src/angle.js:74-91 | level eyes with the right eye to the right of the left eye, the nose centred below them and the chin not above them give roll 0, yaw 0 and pitch in (0, 90) |
| HeadPose.FrontalExample | tests/angle.test.js:30-38 | the test's frontal landmarks give roll 0, yaw 0 and pitch in (0, 90) |
| HeadPose.YawRightExample | tests/angle.test.js:40-46 | the test's nose moved to x = 0.05 gives a positive yaw |

## Left out

- `Math.atan2`, `Math.hypot` and `Math.PI` are abstract, constrained only by the facts in `Math.Valid()`. Their actual values are not modelled.
- HeadPose.FrontalExample: proves roll = 0, yaw = 0 and 0 < pitch < 90. The test's bound `|pitch| < 15` needs real arctangent values, so it is not proved.
- HeadPose.YawRightExample: proves yaw > 0. The test's `yaw > 0.5` needs real arctangent values, so it is not proved.
- IEEE-754 doubles are not modelled: no rounding, `NaN`, infinities or `-0`. As a result, `x || 1e-6` replaces only an exact 0, `a.z || 0` replaces only a missing depth, and the signed zeros that `atan2` distinguishes are not distinguished.
- Angle.DegenerateAngle2D: holds for exact reals only. With doubles, a zero-length arm BA = (0, 0) and an arm BC with both components negative make `dot2` equal -0 and `cross2` equal +0. `Math.atan2(+0, -0)` is pi (section 21.3.2.8 of ECMA-262), so the source returns 180 there, not 0. An example is a = b = (0, 0) and c = (-1, -1).
- Angle.AngleClassification2D: holds for exact reals only. In the case above, dot and cross are both zero as reals, so the model says 0, but the source returns 180 because the dot product is -0.
- Angle.AnglePlanarAgreement: holds for exact reals only. For the same points with no depths, the 3D variant adds `+0` for the z terms, so `dot3` is +0 and it returns 0, while the 2D variant returns 180. With doubles the two functions can disagree on such points.
- Angle.DegenerateAngle3D: holds for exact reals only. With doubles, a zero arm BA = (+0, +0, +0) against an arm BC whose three components are all negative makes `dot3` equal -0. That also gives 180.
- JavaScript truthiness of odd landmark values (`0`, `""`, `false`) is not modelled. A landmark is either a point or absent.
- A `null` or `undefined` landmark record, which throws a `TypeError` while destructuring, is not modelled.
- The thrown `Error` and its message become the single `MissingLandmarks` error value.
- Outer-point symmetry of `angleBetweenPoints3D` is not proved. It would need `hypot` to be even in each argument, an extra fact the other properties do not use.
- Repeated calls with equal inputs give equal results because every member is a pure function. There is no separate statement of this.
- The rest of the app is not part of this model: screens, camera and file handling, the patient-record service, theming and UI components.

=== FILE: angle.dfy ===
/** The angle computations of the library: radians to degrees, the unsigned
    angle at the middle of three points (in the plane and in space), and the
    signed tilt of the eye line. All angles are in degrees. */
module Angle {
  import opened Wrappers
  import opened MathModel
  import opened Geometry

  /** `toDegrees`: converting the result back (times pi / 180) gives `rad`. */
  function ToDegrees(m: Math, rad: real): (r: real)
    requires m.PiPositive()
    ensures r * m.pi == rad * 180.0
  {
    rad * 180.0 / m.pi
  }

  /** Multiplication by a positive factor can be cancelled. */
  lemma CancelPositive(p: real, x: real, y: real)
    requires p > 0.0
    requires x * p == y * p
    ensures x == y
  {
    assert x == x * p / p;
    assert y == y * p / p;
  }

  /** The multiples of pi that the angle contracts mention, in degrees. */
  lemma DegreesOfPiMultiples(m: Math)
    requires m.PiPositive()
    ensures ToDegrees(m, m.pi) == 180.0
    ensures ToDegrees(m, -m.pi) == -180.0
    ensures ToDegrees(m, m.pi / 2.0) == 90.0
    ensures ToDegrees(m, -m.pi / 2.0) == -90.0
    ensures ToDegrees(m, m.pi / 4.0) == 45.0
    ensures ToDegrees(m, 0.0) == 0.0
  {
    CancelPositive(m.pi, ToDegrees(m, m.pi), 180.0);
    CancelPositive(m.pi, ToDegrees(m, -m.pi), -180.0);
    CancelPositive(m.pi, ToDegrees(m, m.pi / 2.0), 90.0);
    CancelPositive(m.pi, ToDegrees(m, -m.pi / 2.0), -90.0);
    CancelPositive(m.pi, ToDegrees(m, m.pi / 4.0), 45.0);
    CancelPositive(m.pi, ToDegrees(m, 0.0), 0.0);
  }

  /** Conversion to degrees is strictly increasing, hence injective. */
  lemma DegreesOrder(m: Math, a: real, b: real)
    requires m.PiPositive()
    ensures a < b <==> ToDegrees(m, a) < ToDegrees(m, b)
    ensures a == b <==> ToDegrees(m, a) == ToDegrees(m, b)
  {
    if a < b { assert a * 180.0 / m.pi < b * 180.0 / m.pi; }
    if b < a { assert b * 180.0 / m.pi < a * 180.0 / m.pi; }
  }

  /** The angle at `b` between `a` and `c`, in radians:
      atan2 of the absolute 2D cross product over the dot product. */
  function Radians2D(m: Math, a: Point2, b: Point2, c: Point2): real {
    m.atan2(Abs(Cross2(Sub2(a, b), Sub2(c, b))), Dot2(Sub2(a, b), Sub2(c, b)))
  }

  /** `angleBetweenPoints2D`: the unsigned angle ABC, within [0, 180]. */
  function AngleBetweenPoints2D(m: Math, a: Point2, b: Point2, c: Point2): (r: real)
    requires m.Valid()
    ensures 0.0 <= r <= 180.0
  {
    var angle := Radians2D(m, a, b, c);
    DegreesOfPiMultiples(m);
    DegreesOrder(m, 0.0, angle);
    DegreesOrder(m, angle, m.pi);
    ToDegrees(m, angle)
  }

  /** `angleBetweenPoints3D`: the unsigned angle ABC with depths, within [0, 180]:
      atan2 of the length of the 3D cross product over the dot product. */
  function AngleBetweenPoints3D(m: Math, a: Point3, b: Point3, c: Point3): (r: real)
    requires m.Valid()
    ensures 0.0 <= r <= 180.0
  {
    var ba := Vec3(a, b);
    var bc := Vec3(c, b);
    var angle := m.atan2(Norm3(m, Cross3(ba, bc)), Dot3(ba, bc));
    DegreesOfPiMultiples(m);
    DegreesOrder(m, 0.0, angle);
    DegreesOrder(m, angle, m.pi);
    ToDegrees(m, angle)
  }

  /** `rollFromEyes`: the signed slope angle of the line from the left eye to
      the right eye. It is positive exactly when the right eye is lower in the
      image (y grows downwards), or 180 for a level line with the eyes
      swapped; 0 for a level eye line with the right eye to the right (or
      coincident eyes); and 45 on the downward diagonal. */
  function RollFromEyes(m: Math, leftEye: Point2, rightEye: Point2): (r: real)
    requires m.Valid()
    ensures -180.0 < r <= 180.0
    ensures r > 0.0 <==> rightEye.y > leftEye.y || r == 180.0
    ensures r < 0.0 <==> rightEye.y < leftEye.y
    ensures r == 0.0 <==> rightEye.y == leftEye.y && rightEye.x >= leftEye.x
    ensures r == 180.0 <==> rightEye.y == leftEye.y && rightEye.x < leftEye.x
    ensures rightEye.x > leftEye.x ==> -90.0 < r < 90.0
    ensures rightEye.x == leftEye.x && rightEye.y > leftEye.y ==> r == 90.0
    ensures rightEye.x - leftEye.x == rightEye.y - leftEye.y > 0.0 ==> r == 45.0
  {
    var dy := rightEye.y - leftEye.y;
    var dx := rightEye.x - leftEye.x;
    var angle := m.atan2(dy, dx);
    DegreesOfPiMultiples(m);
    DegreesOrder(m, -m.pi, angle);
    DegreesOrder(m, angle, m.pi);
    DegreesOrder(m, 0.0, angle);
    DegreesOrder(m, -m.pi / 2.0, angle);
    DegreesOrder(m, angle, m.pi / 2.0);
    ToDegrees(m, angle)
  }

  /** Where in [0, 180] the plane angle falls, by the signs of the dot and
      cross products of BA and BC: 0 when they point the same way (or one is
      zero), 180 when opposite, 90 exactly when perpendicular and not
      parallel, below 90 exactly when the dot product is positive or both
      products are zero. */
  lemma AngleClassification2D(m: Math, a: Point2, b: Point2, c: Point2)
    requires m.Valid()
    ensures var d, k, r := Dot2(Sub2(a, b), Sub2(c, b)), Cross2(Sub2(a, b), Sub2(c, b)),
                           AngleBetweenPoints2D(m, a, b, c);
      && (r == 0.0 <==> k == 0.0 && d >= 0.0)
      && (r == 180.0 <==> k == 0.0 && d < 0.0)
      && (r == 90.0 <==> d == 0.0 && k != 0.0)
      && (r < 90.0 <==> d > 0.0 || (d == 0.0 && k == 0.0))
      && (0.0 < r < 180.0 <==> k != 0.0)
  {
    var d := Dot2(Sub2(a, b), Sub2(c, b));
    var k := Cross2(Sub2(a, b), Sub2(c, b));
    var angle := Radians2D(m, a, b, c);
    assert AngleBetweenPoints2D(m, a, b, c) == ToDegrees(m, angle);
    DegreesOfPiMultiples(m);
    DegreesOrder(m, angle, 0.0);
    DegreesOrder(m, angle, m.pi);
    DegreesOrder(m, angle, m.pi / 2.0);
    if k == 0.0 {
      assert angle == m.atan2(0.0, d);
    } else {
      assert Abs(k) > 0.0;
      if d == 0.0 {
        assert angle == m.atan2(Abs(k), 0.0);
      }
    }
  }

  /** Two nonzero perpendicular vectors BA, BC make a right angle. */
  lemma RightAngle2D(m: Math, a: Point2, b: Point2, c: Point2)
    requires m.Valid()
    requires a != b && c != b
    requires Dot2(Sub2(a, b), Sub2(c, b)) == 0.0
    ensures AngleBetweenPoints2D(m, a, b, c) == 90.0
  {
    PerpendicularNotParallel(Sub2(a, b), Sub2(c, b));
    AngleClassification2D(m, a, b, c);
  }

  /** A zero-length arm gives the angle 0 rather than an error. */
  lemma DegenerateAngle2D(m: Math, a: Point2, b: Point2, c: Point2)
    requires m.Valid()
    requires a == b || c == b
    ensures AngleBetweenPoints2D(m, a, b, c) == 0.0
  {
    AngleClassification2D(m, a, b, c);
  }

  /** The angle does not depend on the order of the outer points. */
  lemma AngleSymmetric2D(m: Math, a: Point2, b: Point2, c: Point2)
    requires m.Valid()
    ensures AngleBetweenPoints2D(m, a, b, c) == AngleBetweenPoints2D(m, c, b, a)
  {
    SwapVectors2(Sub2(a, b), Sub2(c, b));
    assert Radians2D(m, a, b, c) == Radians2D(m, c, b, a);
  }

  /** With every depth missing or 0, the 3D angle is the 2D angle of the
      image-plane points. */
  lemma AnglePlanarAgreement(m: Math, a: Point3, b: Point3, c: Point3)
    requires m.Valid()
    requires Planar(a) && Planar(b) && Planar(c)
    ensures AngleBetweenPoints3D(m, a, b, c)
         == AngleBetweenPoints2D(m, Flatten(a), Flatten(b), Flatten(c))
  {
    var u := Sub2(Flatten(a), Flatten(b));
    var v := Sub2(Flatten(c), Flatten(b));
    assert Vec3(a, b) == Lift(u);
    assert Vec3(c, b) == Lift(v);
    Dot3OfPlanar(u, v);
    Norm3OfPlanarCross(m, u, v);
  }

  /** In space too, a zero-length arm gives the angle 0 rather than an error.
      An arm is zero-length when `vec3` reads it as the zero vector, which
      covers equal points and also points that differ only in a missing
      versus a 0 depth. */
  lemma DegenerateAngle3D(m: Math, a: Point3, b: Point3, c: Point3)
    requires m.Valid()
    requires Vec3(a, b) == Vector3(0.0, 0.0, 0.0) || Vec3(c, b) == Vector3(0.0, 0.0, 0.0)
    ensures AngleBetweenPoints3D(m, a, b, c) == 0.0
  {
    var ba, bc := Vec3(a, b), Vec3(c, b);
    assert Norm3(m, Cross3(ba, bc)) == 0.0;
    assert Dot3(ba, bc) == 0.0;
    DegreesOfPiMultiples(m);
  }

  /** Arms along the two coordinate axes make a right angle. */
  lemma AxisRightAngle2D(m: Math, a: Point2, b: Point2, c: Point2)
    requires m.Valid()
    requires a != b && c != b
    requires (a.x == b.x && c.y == b.y) || (a.y == b.y && c.x == b.x)
    ensures AngleBetweenPoints2D(m, a, b, c) == 90.0
  {
    RightAngle2D(m, a, b, c);
  }

  /** The 2D right-angle example: A = (0, 1), B = (0, 0), C = (1, 0). */
  lemma RightAngleExample2D(m: Math, a: Point2, b: Point2, c: Point2)
    requires m.Valid()
    requires a == Point2(0.0, 1.0) && b == Point2(0.0, 0.0) && c == Point2(1.0, 0.0)
    ensures AngleBetweenPoints2D(m, a, b, c) == 90.0
  {
    AxisRightAngle2D(m, a, b, c);
  }

  /** The 3D right-angle example: A = (0, 0, 0), B = (1, 0, 0), C = (1, 1, 0). */
  lemma RightAngleExample3D(m: Math, a: Point3, b: Point3, c: Point3)
    requires m.Valid()
    requires a == Point3(0.0, 0.0, Some(0.0)) && b == Point3(1.0, 0.0, Some(0.0))
    requires c == Point3(1.0, 1.0, Some(0.0))
    ensures AngleBetweenPoints3D(m, a, b, c) == 90.0
  {
    AnglePlanarAgreement(m, a, b, c);
    AxisRightAngle2D(m, Flatten(a), Flatten(b), Flatten(c));
  }

  /** The roll examples: a level eye line gives 0, a unit diagonal gives 45. */
  lemma RollExamples(m: Math, leftEye: Point2, level: Point2, diagonal: Point2)
    requires m.Valid()
    requires leftEye == Point2(0.0, 0.0) && level == Point2(1.0, 0.0) && diagonal == Point2(1.0, 1.0)
    ensures RollFromEyes(m, leftEye, level) == 0.0
    ensures RollFromEyes(m, leftEye, diagonal) == 45.0
  {
  }
}

=== FILE: geometry.dfy ===
/** The vector helpers of the angle library: 2D and 3D points, displacement
    vectors, dot and cross products and Euclidean norms. Coordinates follow
    the image convention (x to the right, y downwards); nothing here depends
    on the orientation. */
module Geometry {
  import opened Wrappers
  import opened MathModel

  /** A 2D landmark or vector `{x, y}`. */
  datatype Point2 = Point2(x: real, y: real)

  /** A 3D point `{x, y, z}` whose depth may be missing. */
  datatype Point3 = Point3(x: real, y: real, z: Option<real>)

  /** A 3D displacement vector; unlike a point, its depth is always present. */
  datatype Vector3 = Vector3(x: real, y: real, z: real)

  /** `a.z || 0`: the depth of a point, a missing depth read as 0. */
  function Depth(p: Point3): (d: real)
    ensures p.z.None? ==> d == 0.0
    ensures p.z.Some? ==> d == p.z.value
  {
    match p.z
    case Some(z) => z
    case None => 0.0
  }

  /** A point lies in the image plane when its depth is missing or 0. */
  predicate Planar(p: Point3) {
    Depth(p) == 0.0
  }

  /** The image-plane part of a 3D point. */
  function Flatten(p: Point3): Point2 {
    Point2(p.x, p.y)
  }

  /** The displacement `a - b` of two 2D points. */
  function Sub2(a: Point2, b: Point2): Point2 {
    Point2(a.x - b.x, a.y - b.y)
  }

  /** `dot2`: zero when either vector is zero, never negative for a vector with itself. */
  function Dot2(u: Point2, v: Point2): (r: real)
    ensures u == Point2(0.0, 0.0) || v == Point2(0.0, 0.0) ==> r == 0.0
    ensures u == v ==> r >= 0.0
  {
    u.x * v.x + u.y * v.y
  }

  /** `cross2`: the z-component of the cross product of two vectors of the
      plane z = 0; zero when either vector is zero or both are the same. */
  function Cross2(u: Point2, v: Point2): (r: real)
    ensures u == Point2(0.0, 0.0) || v == Point2(0.0, 0.0) ==> r == 0.0
    ensures u == v ==> r == 0.0
  {
    u.x * v.y - u.y * v.x
  }

  /** `Math.hypot(u.x, u.y)`: the length of `u`, zero exactly for the zero vector. */
  function Norm2(m: Math, u: Point2): (r: real)
    requires m.Valid()
    ensures r >= 0.0
    ensures r == 0.0 <==> u == Point2(0.0, 0.0)
  {
    m.hypot2(u.x, u.y)
  }

  /** `vec3(a, b)`: the displacement from `b` to `a`, a missing depth read as 0.
      For points of the image plane it is the 2D displacement at depth 0. */
  function Vec3(a: Point3, b: Point3): (r: Vector3)
    ensures r.x == Sub2(Flatten(a), Flatten(b)).x
    ensures r.y == Sub2(Flatten(a), Flatten(b)).y
    ensures a.z.Some? && b.z.Some? ==> r.z == a.z.value - b.z.value
    ensures a.z.Some? && b.z.None? ==> r.z == a.z.value
    ensures a.z.None? && b.z.Some? ==> r.z == -b.z.value
    ensures Planar(a) && Planar(b) ==> r.z == 0.0
  {
    Vector3(a.x - b.x, a.y - b.y, Depth(a) - Depth(b))
  }

  /** `dot3`: zero when either vector is zero, never negative for a vector with itself. */
  function Dot3(u: Vector3, v: Vector3): (r: real)
    ensures u == Vector3(0.0, 0.0, 0.0) || v == Vector3(0.0, 0.0, 0.0) ==> r == 0.0
    ensures u == v ==> r >= 0.0
  {
    u.x * v.x + u.y * v.y + u.z * v.z
  }

  /** `cross3`: the full 3D cross product; the zero vector when either vector
      is zero or both are the same. */
  function Cross3(u: Vector3, v: Vector3): (r: Vector3)
    ensures u == Vector3(0.0, 0.0, 0.0) || v == Vector3(0.0, 0.0, 0.0) ==> r == Vector3(0.0, 0.0, 0.0)
    ensures u == v ==> r == Vector3(0.0, 0.0, 0.0)
  {
    Vector3(u.y * v.z - u.z * v.y, u.z * v.x - u.x * v.z, u.x * v.y - u.y * v.x)
  }

  /** `Math.hypot(u.x, u.y, u.z)`: the length of `u`; along the z-axis it is |z|. */
  function Norm3(m: Math, u: Vector3): (r: real)
    requires m.Valid()
    ensures r >= 0.0
    ensures u.x == 0.0 && u.y == 0.0 ==> r == Abs(u.z)
  {
    m.hypot3(u.x, u.y, u.z)
  }

  /** The 2D vector as a vector of the plane z = 0. */
  function Lift(u: Point2): Vector3 {
    Vector3(u.x, u.y, 0.0)
  }

  /** On the plane z = 0 the 3D dot product is the 2D one. */
  lemma Dot3OfPlanar(u: Point2, v: Point2)
    ensures Dot3(Lift(u), Lift(v)) == Dot2(u, v)
  {
  }

  /** The cross product of two vectors of the plane z = 0 is perpendicular to
      it, with the 2D cross product as its z-component. */
  lemma Cross3OfPlanar(u: Point2, v: Point2)
    ensures Cross3(Lift(u), Lift(v)) == Vector3(0.0, 0.0, Cross2(u, v))
  {
  }

  /** The length of that cross product is |cross2|. */
  lemma Norm3OfPlanarCross(m: Math, u: Point2, v: Point2)
    requires m.Valid()
    ensures Norm3(m, Cross3(Lift(u), Lift(v))) == Abs(Cross2(u, v))
  {
    Cross3OfPlanar(u, v);
  }

  /** Swapping the two vectors leaves the dot product alone and negates the cross product. */
  lemma SwapVectors2(u: Point2, v: Point2)
    ensures Dot2(v, u) == Dot2(u, v)
    ensures Cross2(v, u) == -Cross2(u, v)
  {
  }

  /** Lagrange's identity in the plane: dot^2 + cross^2 = |u|^2 |v|^2. */
  lemma Lagrange2(u: Point2, v: Point2)
    ensures Dot2(u, v) * Dot2(u, v) + Cross2(u, v) * Cross2(u, v)
         == (u.x * u.x + u.y * u.y) * (v.x * v.x + v.y * v.y)
  {
  }

  /** Two nonzero vectors cannot be both perpendicular (dot = 0) and parallel (cross = 0). */
  lemma PerpendicularNotParallel(u: Point2, v: Point2)
    requires u != Point2(0.0, 0.0) && v != Point2(0.0, 0.0)
    requires Dot2(u, v) == 0.0
    ensures Cross2(u, v) != 0.0
  {
    Lagrange2(u, v);
    var su := u.x * u.x + u.y * u.y;
    var sv := v.x * v.x + v.y * v.y;
    assert su > 0.0 by {
      if u.x != 0.0 { assert u.x * u.x > 0.0; } else { assert u.y * u.y > 0.0; }
    }
    assert sv > 0.0 by {
      if v.x != 0.0 { assert v.x * v.x > 0.0; } else { assert v.y * v.y > 0.0; }
    }
    assert su * sv > 0.0;
  }
}

=== FILE: head_pose.dfy ===
/** The lightweight head-pose heuristic: from four facial landmarks (both
    eyes, nose tip, chin) it derives pitch, yaw and roll in degrees. A missing
    landmark is an error; degenerate geometry is absorbed by replacing a zero
    divisor with a tiny positive constant. */
module HeadPose {
  import opened Wrappers
  import opened MathModel
  import opened Geometry
  import opened Angle

  /** The landmark record; a field is `None` when the caller left it out. */
  datatype Landmarks = Landmarks(
    leftEye: Option<Point2>,
    rightEye: Option<Point2>,
    nose: Option<Point2>,
    chin: Option<Point2>)

  /** The pose estimate, each angle in degrees. */
  datatype Pose = Pose(pitch: real, yaw: real, roll: real)

  /** The one error of the component: a required landmark is absent. */
  datatype PoseError = MissingLandmarks

  /** The floor substituted for a zero divisor. */
  const Epsilon: real := 0.000001

  /** All four required landmarks are present. */
  predicate Complete(lm: Landmarks) {
    lm.leftEye.Some? && lm.rightEye.Some? && lm.nose.Some? && lm.chin.Some?
  }

  /** `x || 1e-6` on a number: a zero is replaced by `Epsilon`, anything else
      is kept as it is, sign included. */
  function OrEpsilon(x: real): (r: real)
    ensures r != 0.0
    ensures x == 0.0 ==> r == Epsilon
    ensures x != 0.0 ==> r == x
    ensures r > 0.0 <==> x >= 0.0
  {
    if x == 0.0 then Epsilon else x
  }

  /** `midEye`: the point halfway between the eyes, as far from one eye as
      from the other along each axis. */
  function MidEye(leftEye: Point2, rightEye: Point2): (r: Point2)
    ensures r.x - leftEye.x == rightEye.x - r.x
    ensures r.y - leftEye.y == rightEye.y - r.y
  {
    Point2((leftEye.x + rightEye.x) / 2.0, (leftEye.y + rightEye.y) / 2.0)
  }

  /** The inter-eye distance, floored: always positive, the true distance
      whenever the eyes are apart and `Epsilon` when they coincide. */
  function InterEyeDist(m: Math, leftEye: Point2, rightEye: Point2): (d: real)
    requires m.Valid()
    ensures d > 0.0
    ensures leftEye == rightEye ==> d == Epsilon
    ensures leftEye != rightEye ==> d == Norm2(m, Sub2(rightEye, leftEye))
  {
    OrEpsilon(Norm2(m, Sub2(rightEye, leftEye)))
  }

  /** The vertical distance from the eye midpoint's height to the chin,
      floored: never zero, `Epsilon` when the chin is level with the midpoint,
      positive when it is below, and kept negative (not floored) when it is
      above. */
  function EyeToChin(leftEye: Point2, rightEye: Point2, chin: Point2): (d: real)
    ensures d != 0.0
    ensures chin.y == MidEye(leftEye, rightEye).y ==> d == Epsilon
    ensures d > 0.0 <==> chin.y >= MidEye(leftEye, rightEye).y
    ensures chin.y != MidEye(leftEye, rightEye).y ==> d == chin.y - MidEye(leftEye, rightEye).y
  {
    OrEpsilon(chin.y - MidEye(leftEye, rightEye).y)
  }

  /** Yaw: the nose's horizontal offset from the eye midpoint against the
      inter-eye distance. Since that divisor is positive, yaw lies strictly
      within (-90, 90) and has the sign of the offset: positive exactly when
      the nose is right of the midpoint, zero exactly when level with it. */
  function Yaw(m: Math, leftEye: Point2, rightEye: Point2, nose: Point2): (yaw: real)
    requires m.Valid()
    ensures -90.0 < yaw < 90.0
    ensures yaw > 0.0 <==> nose.x > MidEye(leftEye, rightEye).x
    ensures yaw < 0.0 <==> nose.x < MidEye(leftEye, rightEye).x
    ensures yaw == 0.0 <==> nose.x == MidEye(leftEye, rightEye).x
  {
    var xOffset := nose.x - MidEye(leftEye, rightEye).x;
    var angle := m.atan2(xOffset, InterEyeDist(m, leftEye, rightEye));
    DegreesOfPiMultiples(m);
    DegreesOrder(m, -m.pi / 2.0, angle);
    DegreesOrder(m, angle, m.pi / 2.0);
    DegreesOrder(m, 0.0, angle);
    ToDegrees(m, angle)
  }

  /** Pitch: the nose's vertical offset from the eye midpoint against the
      floored eye-to-chin distance. Its sign is that of the offset (positive
      when the nose is below the eye midpoint's height), except that a nose
      exactly at that height with the chin above it gives 180. With the chin
      at or below the midpoint's height, pitch lies within (-90, 90); with the
      chin above it and the nose off it, beyond +-90. */
  function Pitch(m: Math, leftEye: Point2, rightEye: Point2, nose: Point2, chin: Point2): (pitch: real)
    requires m.Valid()
    ensures -180.0 < pitch <= 180.0
    ensures pitch < 0.0 <==> nose.y < MidEye(leftEye, rightEye).y
    ensures pitch > 0.0 && pitch != 180.0 <==> nose.y > MidEye(leftEye, rightEye).y
    ensures pitch == 180.0 <==> nose.y == MidEye(leftEye, rightEye).y && chin.y < MidEye(leftEye, rightEye).y
    ensures pitch == 0.0 <==> nose.y == MidEye(leftEye, rightEye).y && chin.y >= MidEye(leftEye, rightEye).y
    ensures chin.y >= MidEye(leftEye, rightEye).y ==> -90.0 < pitch < 90.0
    ensures chin.y < MidEye(leftEye, rightEye).y && nose.y != MidEye(leftEye, rightEye).y ==>
              pitch < -90.0 || pitch > 90.0
  {
    var noseOffset := nose.y - MidEye(leftEye, rightEye).y;
    var angle := m.atan2(noseOffset, EyeToChin(leftEye, rightEye, chin));
    DegreesOfPiMultiples(m);
    DegreesOrder(m, -m.pi, angle);
    DegreesOrder(m, angle, m.pi);
    DegreesOrder(m, -m.pi / 2.0, angle);
    DegreesOrder(m, angle, m.pi / 2.0);
    DegreesOrder(m, 0.0, angle);
    ToDegrees(m, angle)
  }

  /** `estimateHeadPose`: fails with `MissingLandmarks`, computing nothing,
      exactly when one of the four landmarks is absent; otherwise returns a
      pose whose roll follows the tilt of the eye line and whose yaw and pitch
      follow the nose's offset from the eye midpoint. */
  function EstimateHeadPose(m: Math, lm: Landmarks): (r: Result<Pose, PoseError>)
    requires m.Valid()
    ensures r.Failure? <==> !Complete(lm)
    ensures r.Failure? ==> r.error == MissingLandmarks
    ensures r.Success? ==>
              var leftEye, rightEye, nose := lm.leftEye.value, lm.rightEye.value, lm.nose.value;
              && -180.0 < r.value.roll <= 180.0
              && (r.value.roll == 0.0 <==> rightEye.y == leftEye.y && rightEye.x >= leftEye.x)
              && (r.value.roll < 0.0 <==> rightEye.y < leftEye.y)
              && -90.0 < r.value.yaw < 90.0
              && (r.value.yaw > 0.0 <==> nose.x > MidEye(leftEye, rightEye).x)
              && (r.value.yaw == 0.0 <==> nose.x == MidEye(leftEye, rightEye).x)
              && (r.value.pitch < 0.0 <==> nose.y < MidEye(leftEye, rightEye).y)
              && (lm.chin.value.y >= MidEye(leftEye, rightEye).y ==>
                    (-90.0 < r.value.pitch < 90.0
                     && (r.value.pitch > 0.0 <==> nose.y > MidEye(leftEye, rightEye).y)))
  {
    if !Complete(lm) then Failure(MissingLandmarks)
    else
      var leftEye, rightEye := lm.leftEye.value, lm.rightEye.value;
      var nose, chin := lm.nose.value, lm.chin.value;
      Success(Pose(Pitch(m, leftEye, rightEye, nose, chin),
                   Yaw(m, leftEye, rightEye, nose),
                   RollFromEyes(m, leftEye, rightEye)))
  }

  /** The pose's roll is exactly `rollFromEyes` of its two eyes. */
  lemma EstimateRollIsEyeRoll(m: Math, lm: Landmarks)
    requires m.Valid()
    requires Complete(lm)
    ensures EstimateHeadPose(m, lm).value.roll == RollFromEyes(m, lm.leftEye.value, lm.rightEye.value)
  {
  }

  /** The result depends only on the landmarks' relative positions: moving
      all four by the same offset leaves pitch, yaw and roll unchanged. */
  lemma PoseTranslationInvariant(m: Math, lm: Landmarks, dx: real, dy: real)
    requires m.Valid()
    requires Complete(lm)
    ensures var t := Landmarks(Some(Shift(lm.leftEye.value, dx, dy)), Some(Shift(lm.rightEye.value, dx, dy)),
                               Some(Shift(lm.nose.value, dx, dy)), Some(Shift(lm.chin.value, dx, dy)));
            EstimateHeadPose(m, t) == EstimateHeadPose(m, lm)
  {
    var l, r, n, c := lm.leftEye.value, lm.rightEye.value, lm.nose.value, lm.chin.value;
    var l', r', n', c' := Shift(l, dx, dy), Shift(r, dx, dy), Shift(n, dx, dy), Shift(c, dx, dy);
    assert Sub2(r', l') == Sub2(r, l);
    assert n'.x - MidEye(l', r').x == n.x - MidEye(l, r).x;
    assert n'.y - MidEye(l', r').y == n.y - MidEye(l, r).y;
    assert c'.y - MidEye(l', r').y == c.y - MidEye(l, r).y;
  }

  /** A point moved by (dx, dy). */
  function Shift(p: Point2, dx: real, dy: real): Point2 {
    Point2(p.x + dx, p.y + dy)
  }

  /** A frontal face: level eyes with the right eye to the right, the nose
      centred between them and below them, the chin at or below the eye line.
      It has roll 0, yaw 0 and a pitch strictly between 0 and 90. */
  lemma FrontalFace(m: Math, lm: Landmarks)
    requires m.Valid()
    requires Complete(lm)
    requires lm.leftEye.value.y == lm.rightEye.value.y && lm.leftEye.value.x < lm.rightEye.value.x
    requires lm.nose.value.x == MidEye(lm.leftEye.value, lm.rightEye.value).x
    requires lm.nose.value.y > lm.leftEye.value.y && lm.chin.value.y >= lm.leftEye.value.y
    ensures EstimateHeadPose(m, lm).Success?
    ensures EstimateHeadPose(m, lm).value.roll == 0.0
    ensures EstimateHeadPose(m, lm).value.yaw == 0.0
    ensures 0.0 < EstimateHeadPose(m, lm).value.pitch < 90.0
  {
  }

  /** The frontal example: eyes at (-0.03, 0) and (0.03, 0), nose at
      (0, 0.12), chin at (0, 0.5). */
  lemma FrontalExample(m: Math, lm: Landmarks)
    requires m.Valid()
    requires lm == Landmarks(Some(Point2(-0.03, 0.0)), Some(Point2(0.03, 0.0)),
                             Some(Point2(0.0, 0.12)), Some(Point2(0.0, 0.5)))
    ensures EstimateHeadPose(m, lm).Success?
    ensures EstimateHeadPose(m, lm).value.roll == 0.0
    ensures EstimateHeadPose(m, lm).value.yaw == 0.0
    ensures 0.0 < EstimateHeadPose(m, lm).value.pitch < 90.0
  {
    FrontalFace(m, lm);
  }

  /** The yaw-to-the-right example: the same eyes, nose at (0.05, 0.12),
      chin at (0.05, 0.5), give a positive yaw. */
  lemma YawRightExample(m: Math, lm: Landmarks)
    requires m.Valid()
    requires lm == Landmarks(Some(Point2(-0.03, 0.0)), Some(Point2(0.03, 0.0)),
                             Some(Point2(0.05, 0.12)), Some(Point2(0.05, 0.5)))
    ensures EstimateHeadPose(m, lm).Success?
    ensures EstimateHeadPose(m, lm).value.yaw > 0.0
  {
  }

  /** Leaving out any one landmark is rejected, whatever the others hold. */
  lemma MissingAnyLandmarkFails(m: Math, l: Point2, r: Point2, n: Point2, c: Point2)
    requires m.Valid()
    ensures EstimateHeadPose(m, Landmarks(None, Some(r), Some(n), Some(c))) == Failure(MissingLandmarks)
    ensures EstimateHeadPose(m, Landmarks(Some(l), None, Some(n), Some(c))) == Failure(MissingLandmarks)
    ensures EstimateHeadPose(m, Landmarks(Some(l), Some(r), None, Some(c))) == Failure(MissingLandmarks)
    ensures EstimateHeadPose(m, Landmarks(Some(l), Some(r), Some(n), None)) == Failure(MissingLandmarks)
  {
  }
}

=== FILE: math_model.dfy ===
/** The parts of JavaScript's `Math` object that the angle library calls:
    `Math.PI`, `Math.atan2` and `Math.hypot` (with two and with three
    arguments), over exact reals.

    Their real definitions cannot be written over Dafny's `real`, so they are
    kept abstract: a `Math` value carries them as fields, and `Valid` lists the
    facts about them that the model relies on. Every fact is true of the
    mathematical arctangent, Euclidean norm and pi; `AxiomsAreConsistent`
    shows that some `Math` value satisfies all of them at once. */
module MathModel {

  datatype Math = Math(
    pi: real,
    atan2: (real, real) -> real,
    hypot2: (real, real) -> real,
    hypot3: (real, real, real) -> real)
  {
    /** pi is a positive constant. */
    ghost predicate PiPositive() {
      pi > 0.0
    }

    /** `atan2(y, x)` lies in (-pi, pi], reaching pi only on the negative x-axis. */
    ghost predicate Atan2Range() {
      && (forall y: real, x: real :: -pi < atan2(y, x) <= pi)
      && (forall y: real, x: real :: y != 0.0 ==> atan2(y, x) < pi)
    }

    /** The sign of `atan2(y, x)` is the sign of `y`; on the x-axis it is 0
        towards +x (including the origin, as section 21.3.2.8 of ECMA-262
        specifies for `atan2(+0, +0)`) and pi towards -x. */
    ghost predicate Atan2Sign() {
      && (forall y: real, x: real :: y > 0.0 ==> atan2(y, x) > 0.0)
      && (forall y: real, x: real :: y < 0.0 ==> atan2(y, x) < 0.0)
      && (forall y: real, x: real :: y == 0.0 && !(x < 0.0) ==> atan2(y, x) == 0.0)
      && (forall y: real, x: real :: y == 0.0 && x < 0.0 ==> atan2(y, x) == pi)
    }

    /** Quadrants: the right half-plane maps into (-pi/2, pi/2), the y-axis to
        +-pi/2, the open left half-plane outside [-pi/2, pi/2]. */
    ghost predicate Atan2Quadrants() {
      && (forall y: real, x: real :: x > 0.0 ==> -pi / 2.0 < atan2(y, x) < pi / 2.0)
      && (forall y: real, x: real :: x == 0.0 && y > 0.0 ==> atan2(y, x) == pi / 2.0)
      && (forall y: real, x: real :: x == 0.0 && y < 0.0 ==> atan2(y, x) == -pi / 2.0)
      && (forall y: real, x: real :: x < 0.0 && y > 0.0 ==> atan2(y, x) > pi / 2.0)
      && (forall y: real, x: real :: x < 0.0 && y < 0.0 ==> atan2(y, x) < -pi / 2.0)
    }

    /** The diagonal `y == x > 0` is at pi/4. */
    ghost predicate Atan2Diagonal() {
      forall y: real, x: real :: y == x && x > 0.0 ==> atan2(y, x) == pi / 4.0
    }

    /** `hypot` is a norm: zero for the zero vector, positive otherwise, and
        on a coordinate axis it is the absolute value of that coordinate.
        (Non-strict comparisons with a literal inside these quantifiers are
        written as negated strict ones, which the solver handles far better.) */
    ghost predicate HypotNorm() {
      && (forall x: real, y: real :: hypot2(x, y) == 0.0 <==> x == 0.0 && y == 0.0)
      && (forall x: real, y: real :: hypot2(x, y) > 0.0 <==> x != 0.0 || y != 0.0)
      && (forall x: real, y: real, z: real :: !(hypot3(x, y, z) < 0.0))
      && (forall x: real, y: real, z: real :: x == 0.0 && y == 0.0 ==> hypot3(x, y, z) == Abs(z))
    }

    ghost predicate Valid() {
      && PiPositive()
      && Atan2Range()
      && Atan2Sign()
      && Atan2Quadrants()
      && Atan2Diagonal()
      && HypotNorm()
    }
  }

  /** `Math.abs`. */
  function Abs(x: real): (r: real)
    ensures r >= 0.0
    ensures r == x || r == -x
  {
    if x < 0.0 then -x else x
  }

  // A concrete instance, used only to show that `Valid` can be met.

  /** Maps the whole real line monotonically onto (-p/2, p/2), sending 1 to p/4. */
  function Squash(p: real, t: real): (r: real)
    requires p > 0.0
    ensures -p / 2.0 < r < p / 2.0
    ensures t > 0.0 ==> r > 0.0
    ensures t < 0.0 ==> r < 0.0
    ensures t == 0.0 ==> r == 0.0
    ensures t == 1.0 ==> r == p / 4.0
  {
    var q := t / (1.0 + Abs(t));
    assert q * (1.0 + Abs(t)) == t;
    assert -1.0 < q < 1.0;
    p / 2.0 * q
  }

  /** An arctangent-shaped function of the point (x, y) built from `Squash`. */
  function ModelAtan2(p: real, y: real, x: real): real
    requires p > 0.0
  {
    if x > 0.0 then Squash(p, y / x)
    else if x < 0.0 then
      (if y >= 0.0 then p - Squash(p, y / -x) else -p + Squash(p, y / x))
    else if y > 0.0 then p / 2.0
    else if y < 0.0 then -p / 2.0
    else 0.0
  }

  /** Pointwise facts about `ModelAtan2`, one per group of axioms. */
  lemma ModelAtan2Facts(p: real, y: real, x: real)
    requires p > 0.0
    ensures -p < ModelAtan2(p, y, x) <= p
    ensures y != 0.0 ==> ModelAtan2(p, y, x) < p
    ensures y > 0.0 ==> ModelAtan2(p, y, x) > 0.0
    ensures y < 0.0 ==> ModelAtan2(p, y, x) < 0.0
    ensures y == 0.0 && x >= 0.0 ==> ModelAtan2(p, y, x) == 0.0
    ensures y == 0.0 && x < 0.0 ==> ModelAtan2(p, y, x) == p
    ensures x > 0.0 ==> -p / 2.0 < ModelAtan2(p, y, x) < p / 2.0
    ensures x == 0.0 && y > 0.0 ==> ModelAtan2(p, y, x) == p / 2.0
    ensures x == 0.0 && y < 0.0 ==> ModelAtan2(p, y, x) == -p / 2.0
    ensures x < 0.0 && y > 0.0 ==> ModelAtan2(p, y, x) > p / 2.0
    ensures x < 0.0 && y < 0.0 ==> ModelAtan2(p, y, x) < -p / 2.0
    ensures x > 0.0 && y == x ==> ModelAtan2(p, y, x) == p / 4.0
  {
    if x > 0.0 {
      if y > 0.0 { assert y / x > 0.0; }
      if y < 0.0 { assert y / x < 0.0; }
      if y == x { assert y / x == 1.0; }
    } else if x < 0.0 {
      if y > 0.0 { assert y / -x > 0.0; }
      if y < 0.0 { assert y / x > 0.0; }
    }
  }

  /** The concrete instance: `p` for pi, `ModelAtan2` for atan2, and the sum
      of absolute values in place of the Euclidean norm. */
  function ModelMath(): Math {
    Math(3.0,
         (y, x) => ModelAtan2(3.0, y, x),
         (x, y) => Abs(x) + Abs(y),
         (x, y, z) => Abs(x) + Abs(y) + Abs(z))
  }

  lemma ModelMathAtan2Range()
    ensures ModelMath().Atan2Range()
  {
    var m := ModelMath();
    forall y: real, x: real
      ensures -m.pi < m.atan2(y, x) <= m.pi
      ensures y != 0.0 ==> m.atan2(y, x) < m.pi
    {
      ModelAtan2Facts(3.0, y, x);
    }
  }

  lemma ModelMathAtan2Sign()
    ensures ModelMath().Atan2Sign()
  {
    var m := ModelMath();
    forall y: real, x: real
      ensures y > 0.0 ==> m.atan2(y, x) > 0.0
      ensures y < 0.0 ==> m.atan2(y, x) < 0.0
    {
      ModelAtan2Facts(3.0, y, x);
    }
    forall y: real, x: real
      ensures y == 0.0 && !(x < 0.0) ==> m.atan2(y, x) == 0.0
      ensures y == 0.0 && x < 0.0 ==> m.atan2(y, x) == m.pi
    {
      ModelAtan2Facts(3.0, y, x);
    }
  }

  lemma ModelMathAtan2Quadrants()
    ensures ModelMath().Atan2Quadrants()
  {
    var m := ModelMath();
    forall y: real, x: real
      ensures x > 0.0 ==> -m.pi / 2.0 < m.atan2(y, x) < m.pi / 2.0
      ensures x < 0.0 && y > 0.0 ==> m.atan2(y, x) > m.pi / 2.0
      ensures x < 0.0 && y < 0.0 ==> m.atan2(y, x) < -m.pi / 2.0
    {
      ModelAtan2Facts(3.0, y, x);
    }
    forall y: real, x: real
      ensures x == 0.0 && y > 0.0 ==> m.atan2(y, x) == m.pi / 2.0
      ensures x == 0.0 && y < 0.0 ==> m.atan2(y, x) == -m.pi / 2.0
    {
      ModelAtan2Facts(3.0, y, x);
    }
  }

  lemma ModelMathAtan2Diagonal()
    ensures ModelMath().Atan2Diagonal()
  {
    var m := ModelMath();
    forall y: real, x: real
      ensures y == x && x > 0.0 ==> m.atan2(y, x) == m.pi / 4.0
    {
      ModelAtan2Facts(3.0, y, x);
    }
  }

  lemma ModelMathHypot()
    ensures ModelMath().HypotNorm()
  {
  }

  /** The axioms in `Valid` are consistent: a concrete `Math` meets them all. */
  lemma AxiomsAreConsistent()
    ensures ModelMath().Valid()
  {
    ModelMathAtan2Range();
    ModelMathAtan2Sign();
    ModelMathAtan2Quadrants();
    ModelMathAtan2Diagonal();
    ModelMathHypot();
  }
}

=== FILE: wrappers.dfy ===
/** Failure-aware wrapper types shared by the model: `Option` stands for a
    JavaScript value that may be `null`/`undefined`, `Result` for a call that
    either returns a value or throws. */
module Wrappers {

  /** A value that may be absent. */
  datatype Option<+T> = None | Some(value: T)

  /** The outcome of an operation that can fail with an error value. */
  datatype Result<+T, +E> = Success(value: T) | Failure(error: E)
}
